=== FILE: README.md ===
# result: the outcome type and its adapters, in Dafny

This project models the core of the TypeScript library `result`, which has three parts:

- **The outcome type.** A value is either `Ok(value)` or `Err(code, error)`. It has the
  factories `Ok` and `Err` and the constructors they call. Its combinators are `isOk`,
  `isErr`, `expect`, `unwrap` and `fix`, and it has a `toString`.
- **The failure record `ResultError`.** It is an `Error` whose `name` is always
  `ResultError` and whose `code` is fixed when it is built. `ResultError.is` recognises
  it.
- **Two adapters.** `resultify` turns a throwing call into an outcome. `callbackResultify`
  turns a callback-style call into one.

The model is functional. JavaScript values form a closed datatype (`Values.Value`). The
source's runtime dispatch on `arguments.length`, `typeof` and `instanceof` becomes a match
on that datatype. Each combinator receives the argument list it was called with, and
answers a `Completion`: `Returned(v)`, or `Threw(e)` when the source throws.

A callable is data: its `name`, the text `toString` shows, and a description of what it
does when called. That description is one of:

- a table of replies, keyed by argument list;
- for a callback-style callee, the trace of events its run produces;
- the two callbacks the callback adapter injects.

The adapters return an `AdapterRun`. It records every invocation the adapter made, and the
outcome. An outcome is one of:

- rejected with a `TypeError`, before anything was called;
- settled with a `Result`;
- deferred to a promise the callee returned;
- never settled.

Modules:

- `Text` (text.dfy): decimal text of integers, `indexOf`, and `String.prototype.replace`
  with a string pattern, including the `$`-patterns of the GetSubstitution operation in
  ECMA-262, the ECMAScript language specification.
- `Values` (values.dfy): the value universe, `typeof`, `??`, the code check, property
  reads, and calling a callable.
- `ResultErrors` (error.dfy): the `ResultError` constructor and `ResultError.is`.
- `Results` (result.dfy): the outcome type.
- `Resultify` (resultify.dfy): the two adapters.
- `Scenarios` (scenarios.dfy): the repository's test cases, stated against the model.

The model follows the code. Where the tests or the declared types expect something else,
the model states what the code does:

- `expect` and `unwrap` throw `error occurred with code 'null'` (src/result.ts:162). The
  tests expect `Error occurred with code 'null'.` (tests/result.test.ts:33,44).
- `fix` calls its handler with no arguments (src/result.ts:80,89). The signature at
  src/result.ts:66 types the handler as receiving the failure.
- The tests call `okTo` and `errTo` (tests/result.test.ts:58-68), which the source does
  not define.
- `callbackResultify` passes its callee one object holding the params array spread under
  index keys (src/resultify.ts:93-97). The test (tests/resultify.test.ts:11) and the
  declared parameter type expect the first param's own fields.

Two of these are logged under "## Findings" below: the `$`-expansion in `expect`'s rewrite
and the params spread in `callbackResultify`. For each, the model of the combinator
follows the code, and the evidently intended behaviour is a separate member with its
properties proved, next to a lemma showing where the two differ.

## Model

| member | source | states |
|---|---|---|
| ResultErrors.New | src/error.ts:8-13 | the record keeps the code it was given, takes the message as given (empty when none), and has a cause exactly when an options bag with a cause was passed |
| ResultErrors.Is | src/error.ts:2-4 | `is(x)` holds exactly when `x` is a thrown ResultError |
| ResultErrors.NameOfThrown | src/error.ts:11 | reading `name` of any thrown ResultError gives `ResultError`, whatever its code and message; a built-in error shows its own name |
| ResultErrors.IsExactlyResultErrors | src/error.ts:2-4 | every ResultError is recognised; a built-in error of any name and any non-error value are not |
| Results.NewOk | src/result.ts:110-120 | with no argument the success holds `null`, otherwise exactly its first argument |
| Results.OkDelegatesToConstructor | src/result.ts:137-145 | the `Ok` factory and the constructor agree on every argument list, and the result is well formed |
| Results.Err | src/result.ts:157-189 | for every argument shape, the failure is well formed (the record's code is the outcome's code) and its code is the given one, `null` only when none or `null` was given. The default message `error occurred with code '<code>'`, without a cause, is used for zero arguments, one argument, or a second argument that is neither a string nor an Error. A string second argument is the message, with no cause. An Error second argument gives its message and is the cause. Three arguments give the message and the cause |
| Results.IsOkIsErrComplement | src/result.ts:12-18 | exactly one of `isOk` and `isErr` holds of every outcome; the `Ok` factory gives a success and the `Err` factory a failure |
| Results.ExpectMessage | src/result.ts:29 | the evidently intended rewrite: a template without `{code}` is unchanged; otherwise the first `{code}` is replaced by the code text, character for character |
| Results.ExpectMessageNonStringCode | src/result.ts:29 | for a code that is not a string, the `replace` call as written gives exactly the intended rewrite |
| Results.ExpectMessageDollarCounterexample | src/result.ts:29 | as written, `Err('$&').expect('{code}')` throws `{code}`, where the intended rewrite gives `$&` |
| Results.Expect | src/result.ts:22-33 | on a success, returns the value and changes nothing. On a failure, it throws the stored record, keeping its variant, code and cause. Exactly one string argument rewrites the message through `replace` as written, and the rewrite is stored in the outcome. Any other argument list leaves the outcome unchanged |
| Results.ExpectKeepsVariant | src/result.ts:22-33 | `expect` never changes the variant and keeps the outcome well formed |
| Results.ExpectRewritePersists | src/result.ts:28-32 | after `expect(m)` threw, a plain `expect()` on the same outcome throws the same rewritten record and changes nothing further |
| Results.ExpectWithoutPlaceholder | src/result.ts:28-32 | a message without `{code}` is thrown verbatim |
| Results.AsFallback | src/result.ts:53-57 | an argument is a thunk exactly when its `typeof` is `function`; anything else is used as it is |
| Results.Unwrap | src/result.ts:42-58 | a success gives its value whatever the argument. A failure with no argument throws the stored record, with a function returns that function's completion when called with no arguments, and otherwise returns the argument unchanged |
| Results.UnwrapRoundTrip | src/result.ts:42-58 | `Ok(v).unwrap()` is `v` and `Ok().unwrap()` is `null` whatever the fallback. `Err(...).unwrap()` throws a record that `ResultError.is` recognises and that carries the code given to `Err` |
| Results.Fix | src/result.ts:68-97 | a success is returned unchanged for every argument list. On a failure: no argument returns the failure itself; one argument gives the thunk's completion or the literal; two arguments use the handler only when the first is strictly equal to the code, and return the failure otherwise; three or more fall through to `undefined` |
| Results.FixIsGuardedUnwrap | src/result.ts:78-96 | on a failure, `fix(h)` is `unwrap(h)`, and `fix(c, h)` is `unwrap(h)` when `c` is the code and the unchanged failure when it is not |
| Results.FixOkNoOp | src/result.ts:69-71 | a success passes through `fix` unchanged for every argument list |
| Results.ToString | src/result.ts:122-194 | a success prints as `Result Ok(null)`, `Result Ok(undefined)`, or otherwise `Result Ok(<String(value)>)`; a failure prints as `Result Err(<code> <message>)` |
| Results.ToStringTellsVariantsApart | src/result.ts:122-194 | a success and a failure never print alike |
| Values.Coalesce | src/resultify.ts:69-72 | `a ?? b` is `b` exactly when `a` is `null` or `undefined`, else `a` |
| Values.AsCode | src/resultify.ts:22-24 | a code passes the check exactly when it is `null`, `undefined`, a string or a number, and then reads back as the same value |
| Values.AsCodeValue | src/resultify.ts:75-77 | every code passes the check and reads back as itself |
| Values.CodeText | src/result.ts:29 | the text of a code that is not a string never contains `$` |
| Values.Invoke | src/resultify.ts:31 | a callback-style callee throws exactly when its trace holds a throw, and otherwise returns `undefined`; the injected callbacks return `undefined` |
| Text.IntText | src/result.ts:29 | `String(n)` of an integer is an optional minus followed by digits that read back as the magnitude of `n`, with no leading zero, and never contains `$` |
| Text.IndexOf | src/result.ts:29 | `-1` exactly when the pattern does not occur; otherwise the first position where it occurs |
| Text.SubstituteWithoutDollar | src/result.ts:29 | a replacement text without `$` is inserted verbatim by `replace` |
| Text.ReplaceFirstVerbatim | src/result.ts:29 | the first occurrence is replaced: the prefix before it and the suffix after it are unchanged, and the replacement sits between them |
| Text.ReplaceFirstAgreesWithoutDollar | src/result.ts:29 | `replace` with a string pattern equals the verbatim replacement when the replacement text holds no `$` |
| Text.ParseNatText | src/resultify.ts:94 | the decimal key of a position reads back as that position, so index keys of distinct positions differ |
| Resultify.FindCallee | src/resultify.ts:11 | the lowest position in the range holding a function, or none when no position in the range does |
| Resultify.ParseSync | src/resultify.ts:11-28 | `invalid arguments` exactly when none of positions 0 to 2 holds a function. `invalid code` exactly when the callee is not first and the first argument is not `null`, `undefined`, a string or a number. `invalid message` exactly when the callee is third, the code passes, and the second argument is not `null`, `undefined` or a string. Otherwise the callee is the first function in those positions and the params are everything after it; the parsed call spells out exactly the arguments given |
| Resultify.ParseSpelledCall | src/resultify.ts:11-28 | each of the three call forms (`fn, ...params`; `code, fn, ...params`; `code, message, fn, ...params`), once spelled out, parses back to itself |
| Resultify.FailureMessage | src/resultify.ts:42 | a non-empty message string is used as it is; otherwise `error occurred while calling '<name>' function`, with `anonymous` for an unnamed callee |
| Resultify.Failure | src/resultify.ts:42 | the failure an adapter builds is well formed and carries the code, the message, and the thrown value as cause |
| Resultify.Resultify | src/resultify.ts:10-44 | a rejection happens exactly when parsing fails, with the parser's TypeError and no call made. Otherwise the callee is called once with the params. A returned non-promise `v` gives `Ok(v)`, a returned promise is deferred, and a throw gives a failure with the call's code, the failure message and the thrown value as cause |
| Resultify.ResultifyUnwrap | src/resultify.ts:30-43 | unwrapping what `resultify(f, ...params)` gives returns `f`'s value, or throws a record naming `f` whose cause is `f`'s throw; with a leading code the record carries that code |
| Resultify.ReadOptions | src/resultify.ts:63-89 | `invalid options` exactly when `typeof` is not `object`. `null` options fail on reading `code`. Otherwise the four fields default through `??`, and the checks run in order: `invalid code`, then `invalid message`, `invalid resolve` and `invalid reject`, each exactly when the earlier checks pass and its own fails; the options are accepted exactly when all four pass |
| Resultify.ReadOptionsObject | src/resultify.ts:69-72 | an options object reads back as the fields it was written with, with `null`, `null`, `success` and `fail` for missing ones |
| Resultify.ParseCallback | src/resultify.ts:56-73 | `invalid arguments` exactly when neither position 0 nor 1 holds a function. A leading callee gets the default options and every later argument as params. Otherwise the first argument is read as options, and its error or its fields are used |
| Resultify.Spread | src/resultify.ts:94 | spreading an array puts each element under its index key and creates no other key |
| Resultify.Inject | src/resultify.ts:93-97 | as written, the callee's object has the spread params' keys plus `resolve` and `reject`. The `reject` callback is always installed, and the `resolve` callback when the names differ. A param keeps its index key unless a callback name takes it |
| Resultify.CalleeArgs | src/resultify.ts:93-97 | the intended argument list: the first param's own fields with the two callbacks added (`reject` always, `resolve` when the names differ), then the remaining params unchanged |
| Resultify.CalleeArgsWithoutParams | src/resultify.ts:93-97 | without params, the object as written and the intended argument coincide |
| Resultify.SpreadParamsCounterexample | src/resultify.ts:94 | as written, the test's `{a: 1, b: 1}` reaches the callee under `'0'` and there is no `a`; the intended argument has `a` |
| Resultify.SettledBy | src/resultify.ts:95-100 | a `resolve` call gives `Ok(argv)` with the arguments in call order. A `reject` call gives a failure whose cause is its first argument, or `undefined` without one. A synchronous throw gives a failure whose cause is the thrown value. The result is always well formed |
| Resultify.FirstSettling | src/resultify.ts:91-102 | `-1` exactly when no event settles; otherwise the first position whose event settles |
| Resultify.FirstSettlement | src/resultify.ts:91-102 | the settlement chosen is a well-formed outcome |
| Resultify.FirstSettlementIsFinal | src/resultify.ts:91-102 | once an event has settled, any later events leave the outcome unchanged; a trace with no settling event defers to whatever follows |
| Resultify.CallbackResultify | src/resultify.ts:55-103 | a rejection happens exactly when parsing fails, with the parser's TypeError and no call made. Otherwise the callee is called once, with a single argument: the object holding the params under their index keys and the two callbacks. The outcome is the first settlement of the callee's trace, and it never settles when nothing settles |
| Resultify.CallbackResultifyIntended | src/resultify.ts:55-103 | the adapter as evidently intended: the same rejections, no deferral, and one call of the callee with `CalleeArgs`, settled by the first settling event of the run that argument produces |
| Resultify.CallbackResultifyIntendedAgrees | src/resultify.ts:91-102 | the intended and the written adapter reject alike and are the same run when there are no params. They settle alike for a callee given as a trace fixed in advance. This clause covers no callee that reads its argument; `Scenarios.CallbackPlusReadsArgument` shows such a callee settling differently |
| Scenarios.ResultifyPlusReturns | tests/resultify.test.ts:5 | `resultify(plus, 1, 2).unwrap()` is `3` |
| Scenarios.PlusRejectsText | tests/resultify.test.ts:14-19 | `plus(1, '2')` throws `TypeError('invalid arguments')` |
| Scenarios.ResultifyPlusThrows | tests/resultify.test.ts:6 | `resultify(plus, 1, '2').unwrap()` throws `error occurred while calling 'plus' function`, caused by the TypeError |
| Scenarios.ResultifyPlusThrowsWithCode | tests/resultify.test.ts:7 | the same, with the code `'code'` on the record |
| Scenarios.ExpectMessages | tests/result.test.ts:33-34 | `Err().expect()` throws `error occurred with code 'null'`; `Err().expect('message')` throws `message` |
| Scenarios.FixScenarios | tests/result.test.ts:48-55 | the `fix` test cases: a success ignores the handler; a failure repaired by a literal or a thunk gives its `Ok`; a repair with `Err()` literal or thunk gives a failure that `unwrap` throws; a code-matched literal `Ok()` or thunk gives `Ok(null)`; a mismatched code leaves the failure unchanged |
| Scenarios.CallbackPlus | tests/resultify.test.ts:11 | `callbackResultify(callbackPlus, {a: 1, b: 1})` calls the callee once with one object that holds the test's object under `'0'` and has neither `a` nor `b`, and resolves with `Ok([x])` for the value `x` passed to `success` |
| Scenarios.CallbackPlusReadsArgument | src/resultify.ts:93-97 | a callee that throws `a + b` only when its argument holds the test's `a` and `b`, and returns quietly otherwise, never settles as written, because its argument has no `a`. As intended, it settles with a failure whose cause is the sum. A JavaScript callee that computed `a + b` unconditionally would instead throw `NaN` as written and settle with that cause |

## Left out

- Promises are opaque values (`Promise(id)`). Three things are not followed:
  - `resultify`'s `.then`/`.catch` chain on a returned promise; the outcome is `Deferred`;
  - the promise `callbackResultify` returns; its outcome is the first settlement of the trace;
  - `unwrap` and `fix` given async thunks.
- The "not a valid result instance" branches of `expect`, `unwrap` and `fix` are left
  out. A `Result` is a closed datatype, so they cannot be reached.
- The static aliases `Result.Ok`, `Result.Err`, `Result.Resultify` and
  `Result.CallbackResultify` are left out; they only re-export.
- `okTo` and `errTo` are called by the tests but defined nowhere in the source.
- src/types.ts and tsup.config.ts are compile-time types and build configuration. They
  have no runtime behaviour.
- Numbers are integers. Floats, `NaN`, `-0` and exponent formatting are not modelled.
  This matters for `String(code)`, for `===` in `fix`, and for `toString`.
- Results.Err: codes are limited to `null`, `undefined`, strings and numbers, as the
  declared types require. With three arguments, the message must be a string; the
  conversion of other values by `Error`'s constructor is not modelled.
- Values.Get: only own data properties are read, with one exception: the `name` of an
  error, which a built-in error inherits from its prototype. Other inherited properties
  and methods are not read, and neither are getters or a custom `toString` on objects
  (`String` of a plain object is `[object Object]`).
- Values.Invoke: a callable's behaviour is given, not computed from its arguments. A
  callback-style callee's trace is fixed data, and a table of replies answers only the
  argument lists it lists.
- Results.Expect: the source rewrites `this.error.message` in place (src/result.ts:29), on
  a record other references share. Those references are an earlier throw of the same record
  that was caught, the cause of `Err(c, r.error)` (src/result.ts:178), and the `this` that
  `fix` returns (src/result.ts:70,75,95). The model returns the updated outcome, so other
  copies of the record do not see the rewrite: after `r.fix().expect('m')` the model's `r`
  keeps its old message.
- Resultify.CallbackResultify: a call of a member other than the two injected callbacks
  has no effect in a trace. Calls a callee makes through other references are not
  modelled.
- Resultify.CalleeArgs: a first param that is a string, a function, an Error or a Result
  instance contributes no fields. Spreading those own properties and characters is not
  modelled.
- Resultify.ReadOptions: reading `code` from `null` options throws a host TypeError whose
  text is the V8 engine's (`Cannot read properties of null (reading 'code')`). Other
  engines word it differently.

## Findings

| source | as written | input that shows it | evidently intended | confidence | as-written member | corrected member |
|---|---|---|---|---|---|---|
| src/result.ts:29 | `message.replace('{code}', codeText)` passes the code text as a replacement pattern, so `$&`, `$$`, `` $` `` and `$'` in a string code are expanded | `Err('$&').expect('{code}')` throws `{code}` | the code text is inserted verbatim, giving `$&` | medium, not executed | Results.ExpectMessageDollarCounterexample | Results.ExpectMessage |
| src/resultify.ts:94 | `{...params, ...}` spreads the params array, so the callee's object holds the params under `'0'`, `'1'`, ... | `callbackResultify(callbackPlus, {a: 1, b: 1})`: the callee finds no `a` and no `b`, where the test expects the sum `[2]` | the first param's fields are spread and the callbacks added, as the declared `CallbackFnArgs` type and the test show | high, not executed | Resultify.SpreadParamsCounterexample | Resultify.CallbackResultifyIntended |

=== FILE: error.dfy ===
/** The failure record `ResultError`: an `Error` whose `name` is always `ResultError`,
    whose `code` is fixed when it is built, and a predicate telling such records apart
    from every other thrown value. */
module ResultErrors {
  import opened Values

  /** The options bag `Error` accepts: whether it carries a `cause` key, and its value. */
  datatype ErrorOptions = ErrorOptions(cause: Option<Value>)

  /** `new ResultError(code, message?, options?)`: the message and the cause pass straight
      to the base `Error`, which reads a missing message as the empty text. */
  function New(code: Code, message: Option<string>, options: Option<ErrorOptions>): (e: ResultError)
    ensures e.code == code
    ensures message.Some? ==> e.message == message.value
    ensures message.None? ==> e.message == ""
    ensures e.cause.Some? <==> options.Some? && options.value.cause.Some?
    ensures e.cause.Some? ==> e.cause == options.value.cause
  {
    ResultError(
      code,
      if message.Some? then message.value else "",
      if options.Some? then options.value.cause else None)
  }

  /** `ResultError.is(x)`: whether the value `x` is a ResultError. */
  function Is(x: Value): (b: bool)
    ensures b <==> exists e :: x == Thrown(e)
  {
    if x.Error? && x.error.ResultErrorObject? then
      assert x == Thrown(x.error.record);
      true
    else false
  }

  /** The `name` a thrown record shows: `ResultError` for every ResultError, whatever its
      code and message, and a built-in error's own name otherwise. */
  lemma NameOfThrown(e: ResultError, name: string, message: string, cause: Option<Value>)
    ensures Get(Thrown(e), "name") == Str("ResultError")
    ensures Get(Error(BuiltinError(name, message, cause)), "name") == Str(name)
  {
  }

  /** Every ResultError, once thrown, is recognised; no built-in error and no value of
      another kind is. */
  lemma IsExactlyResultErrors(e: ResultError, name: string, message: string, cause: Option<Value>, other: Value)
    requires !other.Error?
    ensures Is(Thrown(e))
    ensures !Is(Error(BuiltinError(name, message, cause)))
    ensures !Is(other)
  {
  }
}

=== FILE: result.dfy ===
/** The outcome type: the `Ok` and `Err` factories with the constructors they delegate
    to, the combinators `isOk`, `isErr`, `expect`, `unwrap` and `fix`, and `toString`.
    Each combinator receives the argument list it was called with, so that the source's
    dispatch on argument count and on `typeof` is visible; a combinator that throws
    answers `Threw`. */
module Results {
  import Text
  import opened Values
  import ResultErrors

  /** `new OkResult(...args)`: no argument stores `null`, otherwise the first argument. */
  function NewOk(args: seq<Value>): (r: Result)
    ensures r.OkResult?
    ensures |args| == 0 ==> r.value == Null
    ensures |args| > 0 ==> r.value == args[0]
  {
    if |args| == 0 then OkResult(Null) else OkResult(args[0])
  }

  /** `Ok(...args)`: calls the constructor with no argument or with its first one. */
  function Ok(args: seq<Value>): Result {
    if |args| == 0 then NewOk([]) else NewOk([args[0]])
  }

  /** The factory and the constructor agree on every argument list. */
  lemma OkDelegatesToConstructor(args: seq<Value>)
    ensures Ok(args) == NewOk(args)
    ensures WellFormed(Ok(args))
  {
  }

  /** The argument shapes `Err` and `new ErrResult` accept, by count: none, a code, a
      code and a second argument of any kind, or a code, a message and a cause. */
  datatype ErrArgs =
    | NoArgs
    | CodeOnly(code: Code)
    | CodeAnd(code: Code, second: Value)
    | CodeMessageCause(code: Code, message: string, cause: Value)

  /** The message a failure gets when none is supplied. */
  function DefaultMessage(c: Code): string {
    "error occurred with code '" + CodeText(c) + "'"
  }

  /** The shapes that get the default message: no argument, a code alone, or a code and
      a second argument that is neither a string nor an `Error`. */
  predicate UsesDefaultMessage(args: ErrArgs) {
    args.NoArgs? || args.CodeOnly? || (args.CodeAnd? && !args.second.Str? && !args.second.Error?)
  }

  /** The code an argument shape asks for: `null` when there is none. */
  function ArgsCode(args: ErrArgs): Code {
    if args.NoArgs? then NullCode else args.code
  }

  /** `Err(...args)`, which forwards to `new ErrResult(...args)` with the same count. */
  function Err(args: ErrArgs): (r: Result)
    ensures r.ErrResult? && WellFormed(r)
    ensures r.code == ArgsCode(args)
    ensures r.code.NullCode? && !args.NoArgs? ==> args.code.NullCode?
    ensures UsesDefaultMessage(args) ==> r.error.message == DefaultMessage(r.code) && r.error.cause == None
    ensures args.CodeAnd? && args.second.Str? ==>
      r.error.message == args.second.s && r.error.cause == None
    ensures args.CodeAnd? && args.second.Error? ==>
      r.error.message == args.second.error.Message() && r.error.cause == Some(args.second)
    ensures args.CodeMessageCause? ==>
      r.error.message == args.message && r.error.cause == Some(args.cause)
  {
    match args
    case NoArgs =>
      ErrResult(NullCode, ResultErrors.New(NullCode, Some(DefaultMessage(NullCode)), None))
    case CodeOnly(c) =>
      ErrResult(c, ResultErrors.New(c, Some(DefaultMessage(c)), None))
    case CodeAnd(c, second) =>
      if second.Str? then
        ErrResult(c, ResultErrors.New(c, Some(second.s), None))
      else if second.Error? then
        ErrResult(c, ResultErrors.New(c, Some(second.error.Message()), Some(ResultErrors.ErrorOptions(Some(second)))))
      else
        ErrResult(c, ResultErrors.New(c, Some(DefaultMessage(c)), None))
    case CodeMessageCause(c, m, x) =>
      ErrResult(c, ResultErrors.New(c, Some(m), Some(ResultErrors.ErrorOptions(Some(x)))))
  }

  predicate IsOk(r: Result) {
    r.OkResult?
  }

  predicate IsErr(r: Result) {
    r.ErrResult?
  }

  /** Exactly one of `isOk` and `isErr` holds of every outcome, and the factories decide
      which. */
  lemma IsOkIsErrComplement(r: Result, okArgs: seq<Value>, errArgs: ErrArgs)
    ensures IsOk(r) != IsErr(r)
    ensures IsOk(Ok(okArgs)) && !IsErr(Ok(okArgs))
    ensures IsErr(Err(errArgs)) && !IsOk(Err(errArgs))
  {
  }

  /** `expect`'s message rewrite as the source writes it, and as `Expect` performs it: the
      first `{code}` in `template` is replaced by the code text through
      `String.prototype.replace`, which expands `$`-patterns in that text. */
  function ExpectMessageAsWritten(template: string, code: Code): string {
    Text.ReplaceFirst(template, "{code}", CodeText(code))
  }

  /** `expect`'s message rewrite as evidently intended: the first `{code}` in `template` is
      replaced by the code text, character for character. */
  function ExpectMessage(template: string, code: Code): (m: string)
    ensures Text.IndexOf(template, "{code}", 0) == -1 ==> m == template
    ensures Text.IndexOf(template, "{code}", 0) != -1 ==>
      var i := Text.IndexOf(template, "{code}", 0);
      m == template[..i] + CodeText(code) + template[i + 6..]
  {
    Text.ReplaceFirstVerbatim(template, "{code}", CodeText(code))
  }

  /** The outcome after `expect` ran, and what the call did. The rewritten message
      persists in the outcome. */
  datatype AfterExpect = AfterExpect(self: Result, outcome: Completion)

  /** `r.expect(...args)`. */
  function Expect(r: Result, args: seq<Value>): (a: AfterExpect)
    ensures r.OkResult? ==> a == AfterExpect(r, Returned(r.value))
    ensures r.ErrResult? ==>
      && a.self.ErrResult?
      && a.self.code == r.code
      && a.self.error.code == r.error.code
      && a.self.error.cause == r.error.cause
      && a.outcome == Threw(Thrown(a.self.error))
    ensures r.ErrResult? && |args| == 1 && args[0].Str? ==>
      a.self.error.message == ExpectMessageAsWritten(args[0].s, r.code)
    ensures !(|args| == 1 && args[0].Str?) ==> a.self == r
  {
    match r
    case OkResult(v) => AfterExpect(r, Returned(v))
    case ErrResult(code, error) =>
      var error' :=
        if |args| == 1 && args[0].Str? then error.(message := ExpectMessageAsWritten(args[0].s, code))
        else error;
      AfterExpect(ErrResult(code, error'), Threw(Thrown(error')))
  }

  /** `expect` never changes the variant and keeps the outcome well formed. */
  lemma ExpectKeepsVariant(r: Result, args: seq<Value>)
    requires WellFormed(r)
    ensures IsOk(Expect(r, args).self) == IsOk(r)
    ensures IsErr(Expect(r, args).self) == IsErr(r)
    ensures WellFormed(Expect(r, args).self)
  {
  }

  /** The rewrite persists: after `expect(m)` threw, a plain `expect()` on the outcome it
      left throws the same rewritten error and changes nothing further. */
  lemma ExpectRewritePersists(r: Result, m: string)
    requires r.ErrResult?
    ensures var first := Expect(r, [Str(m)]);
      && Expect(first.self, []).outcome == first.outcome
      && Expect(first.self, []).self == first.self
      && first.outcome == Threw(Thrown(ResultError(r.error.code, ExpectMessageAsWritten(m, r.code), r.error.cause)))
  {
  }

  /** A message without the placeholder is thrown verbatim. */
  lemma ExpectWithoutPlaceholder(r: Result, m: string)
    requires r.ErrResult?
    requires forall i :: 0 <= i <= |m| ==> !Text.OccursAt(m, "{code}", i)
    ensures Expect(r, [Str(m)]).outcome == Threw(Thrown(r.error.(message := m)))
  {
  }

  /** For a code that is not a string, the rewrite as written is exactly the intended one. */
  lemma ExpectMessageNonStringCode(template: string, code: Code)
    requires !code.StrCode?
    ensures ExpectMessageAsWritten(template, code) == ExpectMessage(template, code)
  {
    Text.ReplaceFirstAgreesWithoutDollar(template, "{code}", CodeText(code));
  }

  /** As written, a string code holding `$&` is not inserted: the placeholder replaces
      itself, where the intended rewrite shows the code. */
  lemma ExpectMessageDollarCounterexample()
    ensures ExpectMessageAsWritten("{code}", StrCode("$&")) == "{code}"
    ensures ExpectMessage("{code}", StrCode("$&")) == "$&"
  {
    assert Text.OccursAt("{code}", "{code}", 0);
    assert Text.IndexOf("{code}", "{code}", 0) == 0;
    assert Text.Substitute("{code}", "{code}", 0, "$&") == "{code}" + Text.Substitute("{code}", "{code}", 0, "");
  }

  /** A fallback argument as `unwrap` and `fix` see it: a function is called with no
      arguments, anything else is used as it is. */
  datatype Fallback = Literal(value: Value) | Thunk(callable: Callable)

  function AsFallback(v: Value): (f: Fallback)
    ensures f.Thunk? <==> TypeOf(v) == "function"
    ensures f.Thunk? ==> v == Fn(f.callable)
    ensures f.Literal? ==> f.value == v
  {
    if v.Fn? then Thunk(v.callable) else Literal(v)
  }

  /** What using a fallback yields: a thunk's completion when called with no argument,
      or the literal itself. */
  function Recover(f: Fallback): Completion {
    match f
    case Thunk(callable) => Invoke(callable, [])
    case Literal(v) => Returned(v)
  }

  /** `r.unwrap(...args)`. */
  function Unwrap(r: Result, args: seq<Value>): (c: Completion)
    ensures r.OkResult? ==> c == Returned(r.value)
    ensures r.ErrResult? && |args| == 0 ==> c == Threw(Thrown(r.error))
    ensures r.ErrResult? && |args| > 0 && args[0].Fn? ==> c == Invoke(args[0].callable, [])
    ensures r.ErrResult? && |args| > 0 && !args[0].Fn? ==> c == Returned(args[0])
  {
    match r
    case OkResult(v) => Returned(v)
    case ErrResult(_, error) =>
      if |args| == 0 then Threw(Thrown(error)) else Recover(AsFallback(args[0]))
  }

  /** `Ok(v).unwrap()` is `v` and `Ok().unwrap()` is `null`, whatever fallback is given;
      `Err(...).unwrap()` throws the failure record, which `ResultError.is` recognises. */
  lemma UnwrapRoundTrip(v: Value, args: seq<Value>, errArgs: ErrArgs)
    ensures Unwrap(Ok([v]), args) == Returned(v)
    ensures Unwrap(Ok([]), args) == Returned(Null)
    ensures Unwrap(Err(errArgs), []).Threw?
    ensures ResultErrors.Is(Unwrap(Err(errArgs), []).error)
    ensures Unwrap(Err(errArgs), []).error.error.record.code == ArgsCode(errArgs)
  {
    assert Unwrap(Err(errArgs), []).error == Thrown(Err(errArgs).error);
  }

  /** `r.fix(...args)`: the handler is called with no arguments; a call with three or
      more arguments on a failure falls through every branch and yields `undefined`. */
  function Fix(r: Result, args: seq<Value>): (c: Completion)
    ensures r.OkResult? ==> c == Returned(ResultInstance(r))
    ensures r.ErrResult? && |args| == 0 ==> c == Returned(ResultInstance(r))
    ensures r.ErrResult? && |args| == 1 && args[0].Fn? ==> c == Invoke(args[0].callable, [])
    ensures r.ErrResult? && |args| == 1 && !args[0].Fn? ==> c == Returned(args[0])
    ensures r.ErrResult? && |args| == 2 && args[0] != CodeValue(r.code) ==> c == Returned(ResultInstance(r))
    ensures r.ErrResult? && |args| == 2 && args[0] == CodeValue(r.code) && args[1].Fn? ==>
      c == Invoke(args[1].callable, [])
    ensures r.ErrResult? && |args| == 2 && args[0] == CodeValue(r.code) && !args[1].Fn? ==>
      c == Returned(args[1])
    ensures r.ErrResult? && |args| >= 3 ==> c == Returned(Undefined)
  {
    match r
    case OkResult(_) => Returned(ResultInstance(r))
    case ErrResult(code, _) =>
      if |args| == 0 then Returned(ResultInstance(r))
      else if |args| == 1 then Recover(AsFallback(args[0]))
      else if |args| == 2 then
        if args[0] == CodeValue(code) then Recover(AsFallback(args[1])) else Returned(ResultInstance(r))
      else Returned(Undefined)
  }

  /** `fix` repairs a failure exactly as `unwrap` recovers it, restricted by the code: with
      one argument always, with a code and a handler only when the code is strictly equal
      to the failure's; otherwise the outcome comes back unchanged. */
  lemma FixIsGuardedUnwrap(r: Result, code: Value, handler: Value)
    requires r.ErrResult?
    ensures Fix(r, [handler]) == Unwrap(r, [handler])
    ensures code == CodeValue(r.code) ==> Fix(r, [code, handler]) == Unwrap(r, [handler])
    ensures code != CodeValue(r.code) ==> Fix(r, [code, handler]) == Returned(ResultInstance(r))
  {
  }

  /** A success passes through `fix` untouched for every argument list. */
  lemma FixOkNoOp(v: Value, args1: seq<Value>, args2: seq<Value>)
    ensures Fix(OkResult(v), args1) == Fix(OkResult(v), args2) == Returned(ResultInstance(OkResult(v)))
  {
  }

  /** `Error.prototype.toString`: the name and the message joined by `: `, either alone
      when the other is empty. */
  function ErrorText(e: ErrorObject): string {
    if e.Name() == "" then e.Message()
    else if e.Message() == "" then e.Name()
    else e.Name() + ": " + e.Message()
  }

  /** The text a value converts to with `String(v)`; for a Result instance it is the
      outcome's own `toString`. */
  function ValueText(v: Value): string
    decreases v, 1
  {
    match v
    case Undefined => "undefined"
    case Null => "null"
    case Bool(b) => if b then "true" else "false"
    case Num(n) => Text.IntText(n)
    case Str(s) => s
    case Arr(_) => JoinText(v, 0)
    case Obj(_) => "[object Object]"
    case Fn(f) => f.source
    case Error(e) => ErrorText(e)
    case ResultInstance(OkResult(x)) => "Result Ok(" + ValueText(x) + ")"
    case ResultInstance(ErrResult(code, error)) => "Result Err(" + CodeText(code) + " " + error.message + ")"
    case Promise(_) => "[object Promise]"
  }

  /** `Array.prototype.join(',')` from position `from` on: `null` and `undefined` elements
      show as empty text. */
  function JoinText(a: Value, from: nat): string
    requires a.Arr?
    decreases a, 0, |a.items| - from
  {
    if from >= |a.items| then ""
    else
      var x := a.items[from];
      var t := if IsNullish(x) then "" else ValueText(x);
      if from + 1 == |a.items| then t else t + "," + JoinText(a, from + 1)
  }

  /** `r.toString()`. */
  function ToString(r: Result): (s: string)
    ensures r.OkResult? && r.value == Null ==> s == "Result Ok(null)"
    ensures r.OkResult? && r.value == Undefined ==> s == "Result Ok(undefined)"
    ensures r.OkResult? ==> s == "Result Ok(" + ValueText(r.value) + ")"
    ensures r.ErrResult? ==> s == "Result Err(" + CodeText(r.code) + " " + r.error.message + ")"
  {
    ValueText(ResultInstance(r))
  }

  /** A success and a failure never print alike. */
  lemma ToStringTellsVariantsApart(ok: Result, err: Result)
    requires ok.OkResult? && err.ErrResult?
    ensures ToString(ok) != ToString(err)
  {
    assert ToString(ok)[7] == 'O';
    assert ToString(err)[7] == 'E';
  }
}

=== FILE: resultify.dfy ===
/** The two adapters. `resultify` finds the callee among its first three arguments,
    checks the code and message it was given, calls the callee once with the remaining
    arguments and turns a return into `Ok` and a throw into `Err`. `callbackResultify`
    reads an options object, calls its callee once with an object holding the remaining
    arguments and two injected callbacks, and settles with the first of: the success
    callback called, the failure callback called, or the call throwing.  Every run
    records the calls the adapter made, so that a misuse visibly raises its `TypeError`
    before the callee runs. */
module Resultify {
  import Text
  import opened Values
  import Results

  /** An argument check that either passes with what it read or fails with the message
      of the `TypeError` it throws. */
  datatype Checked<T> = Valid(value: T) | Invalid(message: string)

  datatype Invocation = Invocation(callee: Callable, argv: seq<Value>)

  datatype AdapterOutcome =
    /** A `TypeError` thrown at the adapter's call. */
    | Rejected(error: Value)
    /** The outcome the adapter returns (resultify) or its promise resolves with. */
    | Settled(result: Result)
    /** resultify's callee returned a promise; the outcome chained on it is not followed. */
    | Deferred(promise: Value)
    /** callbackResultify's promise never settles. */
    | Unsettled

  datatype AdapterRun = AdapterRun(calls: seq<Invocation>, outcome: AdapterOutcome)

  /** The lowest position in `from..limit` holding a function, if any. */
  function FindCallee(args: seq<Value>, from: nat, limit: nat): (k: Option<nat>)
    ensures k.Some? ==> from <= k.value < limit && k.value < |args| && args[k.value].Fn?
    ensures k.Some? ==> forall j :: from <= j < k.value ==> !args[j].Fn?
    ensures k.None? ==> forall j :: from <= j < limit && j < |args| ==> !args[j].Fn?
    decreases limit - from
  {
    if from >= limit || from >= |args| then None
    else if args[from].Fn? then Some(from)
    else FindCallee(args, from + 1, limit)
  }

  /** The three ways to call `resultify`: `(fn, ...params)`, `(code, fn, ...params)` and
      `(code, message, fn, ...params)`. */
  datatype SyncCall =
    | Plain(callee: Callable, params: seq<Value>)
    | WithCode(code: Code, callee: Callable, params: seq<Value>)
    | WithCodeAndMessage(code: Code, message: Value, callee: Callable, params: seq<Value>)
  {
    /** The code a failure gets: `null` when the callee comes first. */
    function FailureCode(): Code {
      if Plain? then NullCode else code
    }

    /** The message given: `null` unless the callee comes third. */
    function GivenMessage(): Value {
      if WithCodeAndMessage? then message else Null
    }

    /** The argument list that spells this call. */
    function Spell(): seq<Value> {
      match this
      case Plain(f, ps) => [Fn(f)] + ps
      case WithCode(c, f, ps) => [CodeValue(c), Fn(f)] + ps
      case WithCodeAndMessage(c, m, f, ps) => [CodeValue(c), m, Fn(f)] + ps
    }
  }

  /** A message the adapters accept: `null`, `undefined` or a string. */
  predicate IsMessage(v: Value) {
    IsNullish(v) || v.Str?
  }

  /** `resultify`'s argument handling. */
  function ParseSync(args: seq<Value>): (r: Checked<SyncCall>)
    ensures r == Invalid("invalid arguments") <==> forall j :: 0 <= j < 3 && j < |args| ==> !args[j].Fn?
    ensures r.Invalid? ==> r.message in ["invalid arguments", "invalid code", "invalid message"]
    ensures var k := FindCallee(args, 0, 3);
      r == Invalid("invalid code") <==> k.Some? && k.value > 0 && AsCode(args[0]).None?
    ensures var k := FindCallee(args, 0, 3);
      r == Invalid("invalid message") <==> k.Some? && k.value == 2 && AsCode(args[0]).Some? && !IsMessage(args[1])
    ensures r.Valid? ==> r.value.Spell() == args
    ensures r.Valid? ==> IsMessage(r.value.GivenMessage())
    ensures r.Valid? ==> var k := |args| - |r.value.params| - 1;
      && 0 <= k < 3 && args[k] == Fn(r.value.callee)
      && (forall j :: 0 <= j < k ==> !args[j].Fn?)
      && r.value.params == args[k + 1..]
  {
    var k := FindCallee(args, 0, 3);
    if k.None? then Invalid("invalid arguments")
    else
      var i := k.value;
      var f := args[i].callable;
      var params := args[i + 1..];
      var code := AsCode(if i == 0 then Null else args[0]);
      var message := if i == 2 then args[1] else Null;
      if code.None? then Invalid("invalid code")
      else if !IsMessage(message) then Invalid("invalid message")
      else
        var call :=
          if i == 0 then Plain(f, params)
          else if i == 1 then WithCode(code.value, f, params)
          else WithCodeAndMessage(code.value, message, f, params);
        assert args == args[..i] + [args[i]] + params;
        Valid(call)
  }

  /** Spelling a call out and parsing it back gives the same call: the three overloads
      are recognised exactly. Together with `ParseSync`'s `Spell` clause, parsing and
      spelling are inverse on the argument lists `resultify` accepts. */
  lemma ParseSpelledCall(call: SyncCall)
    requires IsMessage(call.GivenMessage())
    ensures ParseSync(call.Spell()) == Valid(call)
  {
    var args := call.Spell();
    match call
    case Plain(f, ps) =>
      assert args[0] == Fn(f);
      assert args[1..] == ps;
    case WithCode(c, f, ps) =>
      AsCodeValue(c);
      assert args[1] == Fn(f);
      assert args[2..] == ps;
    case WithCodeAndMessage(c, m, f, ps) =>
      AsCodeValue(c);
      assert args[2] == Fn(f);
      assert args[3..] == ps;
  }

  /** `message || "error occurred while calling '<name>' function"`, where an unnamed
      callee is called `anonymous`. */
  function FailureMessage(message: Value, callee: Callable): (m: string)
    requires IsMessage(message)
    ensures message.Str? && message.s != "" ==> m == message.s
    ensures !(message.Str? && message.s != "") ==>
      m == "error occurred while calling '" + (if callee.name == "" then "anonymous" else callee.name) + "' function"
  {
    if message.Str? && message.s != "" then message.s
    else "error occurred while calling '" + (if callee.name == "" then "anonymous" else callee.name) + "' function"
  }

  /** The failure outcome an adapter builds from a thrown or rejected `error`. */
  function Failure(code: Code, message: string, error: Value): (r: Result)
    ensures r.ErrResult? && WellFormed(r)
    ensures r.code == code && r.error.message == message && r.error.cause == Some(error)
  {
    Results.Err(Results.CodeMessageCause(code, message, error))
  }

  /** `resultify(...args)`. */
  function Resultify(args: seq<Value>): (run: AdapterRun)
    ensures run.outcome.Rejected? <==> ParseSync(args).Invalid?
    ensures run.outcome.Rejected? ==>
      run.calls == [] && run.outcome.error == TypeErrorValue(ParseSync(args).message)
    ensures !run.outcome.Unsettled?
    ensures run.outcome.Settled? ==> WellFormed(run.outcome.result)
    ensures ParseSync(args).Valid? ==>
      var call := ParseSync(args).value;
      var c := Invoke(call.callee, call.params);
      && run.calls == [Invocation(call.callee, call.params)]
      && (c.Returned? && !c.value.Promise? ==> run.outcome == Settled(OkResult(c.value)))
      && (c.Returned? && c.value.Promise? ==> run.outcome == Deferred(c.value))
      && (c.Threw? ==> run.outcome.Settled? && run.outcome.result.ErrResult?)
      && (c.Threw? ==> run.outcome.result.code == call.FailureCode())
      && (c.Threw? ==> run.outcome.result.error.cause == Some(c.error))
      && (c.Threw? ==> run.outcome.result.error.message == FailureMessage(call.GivenMessage(), call.callee))
  {
    var parsed := ParseSync(args);
    if parsed.Invalid? then AdapterRun([], Rejected(TypeErrorValue(parsed.message)))
    else
      var call := parsed.value;
      var outcome :=
        match Invoke(call.callee, call.params)
        case Returned(v) => if v.Promise? then Deferred(v) else Settled(Results.Ok([v]))
        case Threw(e) => Settled(Failure(call.FailureCode(), FailureMessage(call.GivenMessage(), call.callee), e));
      AdapterRun([Invocation(call.callee, call.params)], outcome)
  }

  /** What `resultify` hands back can be unwrapped: a returned value comes back out, and
      a throw comes back as the failure record, whose cause is the thrown value and whose
      message names the callee when no message was given. */
  lemma ResultifyUnwrap(f: Callable, code: Code, params: seq<Value>)
    ensures var run := Resultify([Fn(f)] + params);
      var c := Invoke(f, params);
      && (c.Returned? && !c.value.Promise? ==> Results.Unwrap(run.outcome.result, []) == Returned(c.value))
      && (c.Threw? ==>
            Results.Unwrap(run.outcome.result, []) ==
            Threw(Thrown(ResultError(NullCode, "error occurred while calling '" +
              (if f.name == "" then "anonymous" else f.name) + "' function", Some(c.error)))))
    ensures var run := Resultify([CodeValue(code), Fn(f)] + params);
      Invoke(f, params).Threw? ==> Results.Unwrap(run.outcome.result, []).error.error.record.code == code
  {
    ParseSpelledCall(Plain(f, params));
    ParseSpelledCall(WithCode(code, f, params));
  }

  /** The options `callbackResultify` works with, after defaults. */
  datatype CallbackOptions = CallbackOptions(code: Code, message: Value, resolve: string, reject: string)

  /** The host's `TypeError` message for reading a property of `null`. */
  const NullPropertyRead: string := "Cannot read properties of null (reading 'code')"

  /** `callbackResultify`'s options handling: the options must be an object; `code`,
      `message`, `resolve` and `reject` default through `??` to `null`, `null`,
      `'success'` and `'fail'`, and each is then checked. A `null` options value passes
      the `typeof` check and fails at the first property read. */
  function ReadOptions(options: Value): (r: Checked<CallbackOptions>)
    ensures r == Invalid("invalid options") <==> TypeOf(options) != "object"
    ensures options.Null? ==> r == Invalid(NullPropertyRead)
    ensures r.Valid? ==>
      && CodeValue(r.value.code) == Coalesce(Get(options, "code"), Null)
      && r.value.message == Coalesce(Get(options, "message"), Null)
      && Str(r.value.resolve) == Coalesce(Get(options, "resolve"), Str("success"))
      && Str(r.value.reject) == Coalesce(Get(options, "reject"), Str("fail"))
    ensures r.Valid? ==> !r.value.code.UndefinedCode? && IsMessage(r.value.message) && !r.value.message.Undefined?
    ensures TypeOf(options) == "object" && !options.Null? ==>
      var codeOk := AsCode(Coalesce(Get(options, "code"), Null)).Some?;
      var messageOk := IsMessage(Get(options, "message"));
      var resolveOk := IsNullish(Get(options, "resolve")) || Get(options, "resolve").Str?;
      var rejectOk := IsNullish(Get(options, "reject")) || Get(options, "reject").Str?;
      && (r == Invalid("invalid code") <==> !codeOk)
      && (r == Invalid("invalid message") <==> codeOk && !messageOk)
      && (r == Invalid("invalid resolve") <==> codeOk && messageOk && !resolveOk)
      && (r == Invalid("invalid reject") <==> codeOk && messageOk && resolveOk && !rejectOk)
    ensures TypeOf(options) == "object" && !options.Null? ==>
      (r.Valid? <==>
        && AsCode(Coalesce(Get(options, "code"), Null)).Some?
        && IsMessage(Get(options, "message"))
        && (IsNullish(Get(options, "resolve")) || Get(options, "resolve").Str?)
        && (IsNullish(Get(options, "reject")) || Get(options, "reject").Str?))
  {
    if TypeOf(options) != "object" then Invalid("invalid options")
    else if options.Null? then Invalid(NullPropertyRead)
    else
      var code := AsCode(Coalesce(Get(options, "code"), Null));
      var message := Coalesce(Get(options, "message"), Null);
      var resolve := Coalesce(Get(options, "resolve"), Str("success"));
      var reject := Coalesce(Get(options, "reject"), Str("fail"));
      if code.None? then Invalid("invalid code")
      else if !IsMessage(message) then Invalid("invalid message")
      else if !resolve.Str? then Invalid("invalid resolve")
      else if !reject.Str? then Invalid("invalid reject")
      else Valid(CallbackOptions(code.value, message, resolve.s, reject.s))
  }

  /** An options object written with some of its four fields. */
  function OptionsObject(code: Option<Code>, message: Option<string>, resolve: Option<string>, reject: Option<string>): Value {
    var m0: map<string, Value> := map[];
    var m1 := if code.Some? then m0["code" := CodeValue(code.value)] else m0;
    var m2 := if message.Some? then m1["message" := Str(message.value)] else m1;
    var m3 := if resolve.Some? then m2["resolve" := Str(resolve.value)] else m2;
    var m4 := if reject.Some? then m3["reject" := Str(reject.value)] else m3;
    Obj(m4)
  }

  /** Reading an options object gives back the fields it was written with, and the
      defaults for the missing ones; a missing or `undefined` code reads as `null`. */
  lemma ReadOptionsObject(code: Option<Code>, message: Option<string>, resolve: Option<string>, reject: Option<string>)
    ensures ReadOptions(OptionsObject(code, message, resolve, reject)) == Valid(CallbackOptions(
      if code.Some? && !code.value.UndefinedCode? then code.value else NullCode,
      if message.Some? then Str(message.value) else Null,
      if resolve.Some? then resolve.value else "success",
      if reject.Some? then reject.value else "fail"))
  {
    var o := OptionsObject(code, message, resolve, reject);
    if code.Some? {
      AsCodeValue(code.value);
    }
    assert code.Some? ==> Get(o, "code") == CodeValue(code.value);
    assert code.None? ==> Get(o, "code") == Undefined;
  }

  /** The callee and what `callbackResultify` read from its other arguments. */
  datatype CallbackCall = CallbackCall(callee: Callable, options: CallbackOptions, params: seq<Value>)

  /** `callbackResultify`'s argument handling: the callee sits at position 0 or 1; at
      1, the argument before it is the options, otherwise they are `{}`. */
  function ParseCallback(args: seq<Value>): (r: Checked<CallbackCall>)
    ensures r == Invalid("invalid arguments") <==> forall j :: 0 <= j < 2 && j < |args| ==> !args[j].Fn?
    ensures |args| > 0 && args[0].Fn? ==>
      r == Valid(CallbackCall(args[0].callable, CallbackOptions(NullCode, Null, "success", "fail"), args[1..]))
    ensures |args| > 1 && !args[0].Fn? && args[1].Fn? ==>
      (ReadOptions(args[0]).Invalid? ==> r == Invalid(ReadOptions(args[0]).message)) &&
      (ReadOptions(args[0]).Valid? ==> r == Valid(CallbackCall(args[1].callable, ReadOptions(args[0]).value, args[2..])))
  {
    var k := FindCallee(args, 0, 2);
    if k.None? then Invalid("invalid arguments")
    else
      var i := k.value;
      var options := if i == 1 then args[0] else Obj(map[]);
      ReadOptionsObject(None, None, None, None);
      assert Obj(map[]) == OptionsObject(None, None, None, None);
      match ReadOptions(options)
      case Invalid(m) => Invalid(m)
      case Valid(o) => Valid(CallbackCall(args[i].callable, o, args[i + 1..]))
  }

  /** `{...params}` for an array: each element under its index key. */
  function Spread(params: seq<Value>): (m: map<string, Value>)
    ensures forall i :: 0 <= i < |params| ==> Text.NatText(i) in m && m[Text.NatText(i)] == params[i]
    ensures forall k :: k in m ==> IsIndexKey(k, |params|)
    decreases |params|
  {
    if |params| == 0 then map[]
    else
      var n := |params| - 1;
      var m := Spread(params[..n]);
      assert forall i :: 0 <= i < n ==> params[..n][i] == params[i];
      SpreadKeepsEarlier(params, m);
      SpreadAddsIndexKey(n, m, params[n]);
      m[Text.NatText(n) := params[n]]
  }

  /** The elements already spread keep their keys when the last element is added. */
  lemma SpreadKeepsEarlier(params: seq<Value>, m: map<string, Value>)
    requires |params| > 0
    requires forall i :: 0 <= i < |params| - 1 ==> Text.NatText(i) in m && m[Text.NatText(i)] == params[i]
    ensures var m' := m[Text.NatText(|params| - 1) := params[|params| - 1]];
      forall i :: 0 <= i < |params| ==> Text.NatText(i) in m' && m'[Text.NatText(i)] == params[i]
  {
    var n := |params| - 1;
    var m' := m[Text.NatText(n) := params[n]];
    forall i | 0 <= i < |params|
      ensures Text.NatText(i) in m' && m'[Text.NatText(i)] == params[i]
    {
      if i < n {
        Text.NatTextsDiffer(i, n);
      }
    }
  }

  /** The key added for position `n` is the index key of that position. */
  lemma SpreadAddsIndexKey(n: nat, m: map<string, Value>, v: Value)
    requires forall k :: k in m ==> IsIndexKey(k, n)
    ensures var m' := m[Text.NatText(n) := v];
      forall k :: k in m' ==> IsIndexKey(k, n + 1)
  {
    Text.ParseNatText(n);
  }

  /** The two callbacks the adapter injects under the names `resolve` and `reject`; the
      text their `toString` shows is abbreviated. */
  function ResolverFn(name: string): Value {
    Fn(Callable(name, "(...value) => { ... }", Resolver))
  }

  function RejecterFn(name: string): Value {
    Fn(Callable(name, "(error) => { ... }", Rejecter))
  }

  /** The object the source builds for the callback callee, `{...params, [resolve]: ...,
      [reject]: ...}`: spreading the params array puts each param under its index key,
      then the two callbacks follow, each overriding what is already there. */
  function Inject(params: seq<Value>, resolve: string, reject: string): (m: map<string, Value>)
    ensures m.Keys == Spread(params).Keys + {resolve, reject}
    ensures m[reject] == RejecterFn(reject)
    ensures resolve != reject ==> m[resolve] == ResolverFn(resolve)
    ensures forall i :: 0 <= i < |params| && Text.NatText(i) != resolve && Text.NatText(i) != reject ==>
      m[Text.NatText(i)] == params[i]
  {
    Spread(params)[resolve := ResolverFn(resolve)][reject := RejecterFn(reject)]
  }

  /** Whether an event settles the callback adapter's promise: a call of the member named
      `resolve` or `reject`, or the synchronous call throwing. */
  predicate Settles(e: Event, options: CallbackOptions) {
    e.Throw? || e.member == options.resolve || e.member == options.reject
  }

  /** The outcome a settling event resolves the promise with. A call of the `reject` member
      takes its first argument (`undefined` if none) as the cause; when both names are the
      same, the rejecting callback is the one installed. */
  function SettledBy(e: Event, options: CallbackOptions, message: string): (r: Result)
    requires Settles(e, options)
    ensures WellFormed(r)
    ensures e.Call? && e.member == options.resolve && e.member != options.reject ==> r == OkResult(Arr(e.argv))
    ensures e.Call? && e.member == options.reject ==>
      r == Failure(options.code, message, if |e.argv| > 0 then e.argv[0] else Undefined)
    ensures e.Throw? ==> r == Failure(options.code, message, e.error)
  {
    match e
    case Throw(error) => Failure(options.code, message, error)
    case Call(member, argv) =>
      if member == options.reject then Failure(options.code, message, if |argv| > 0 then argv[0] else Undefined)
      else Results.Ok([Arr(argv)])
  }

  /** The position of the first settling event at or after `from`, or -1 when none
      settles. */
  function FirstSettling(events: seq<Event>, options: CallbackOptions, from: nat): (k: int)
    ensures k == -1 <==> forall i :: from <= i < |events| ==> !Settles(events[i], options)
    ensures k != -1 ==> from <= k < |events| && Settles(events[k], options)
    ensures k != -1 ==> forall j :: from <= j < k ==> !Settles(events[j], options)
    decreases |events| - from
  {
    if from >= |events| then -1
    else if Settles(events[from], options) then from
    else FirstSettling(events, options, from + 1)
  }

  /** The outcome decided by the first settling event of a trace, if there is one. */
  function FirstSettlement(events: seq<Event>, options: CallbackOptions, message: string): (r: Option<Result>)
    ensures r.Some? ==> WellFormed(r.value)
  {
    var k := FirstSettling(events, options, 0);
    if k == -1 then None else Some(SettledBy(events[k], options, message))
  }

  /** Only the first settlement counts: whatever the callee does after it, the outcome
      stays the same; and a trace in which nothing settles leaves the promise pending. */
  lemma FirstSettlementIsFinal(events: seq<Event>, later: seq<Event>, options: CallbackOptions, message: string)
    ensures FirstSettlement(events, options, message).Some? ==>
      FirstSettlement(events + later, options, message) == FirstSettlement(events, options, message)
    ensures FirstSettlement(events, options, message).None? ==>
      FirstSettlement(events + later, options, message) == FirstSettlement(later, options, message)
  {
    var all := events + later;
    var k := FirstSettling(events, options, 0);
    var k' := FirstSettling(all, options, 0);
    assert forall i :: 0 <= i < |events| ==> all[i] == events[i];
    assert forall i :: 0 <= i < |later| ==> all[|events| + i] == later[i];
    if k != -1 {
      assert Settles(all[k], options);
      assert k' == k;
    } else {
      var l := FirstSettling(later, options, 0);
      if l != -1 {
        assert Settles(all[|events| + l], options);
        assert k' == |events| + l;
      } else {
        assert forall i :: 0 <= i < |all| ==> !Settles(all[i], options) by {
          forall i | 0 <= i < |all|
            ensures !Settles(all[i], options)
          {
            if i >= |events| {
              assert all[i] == later[i - |events|];
            }
          }
        }
      }
    }
  }

  /** The run of a parsed callback call whose callee receives `argv`: one invocation, and
      the outcome of the first settling event of its trace, if any. */
  function CallbackRun(call: CallbackCall, argv: seq<Value>): (run: AdapterRun)
    requires IsMessage(call.options.message)
    ensures run.calls == [Invocation(call.callee, argv)]
    ensures var settlement := FirstSettlement(RunEvents(call.callee, argv), call.options,
                                              FailureMessage(call.options.message, call.callee));
      && (settlement.None? ==> run.outcome == Unsettled)
      && (settlement.Some? ==> run.outcome == Settled(settlement.value) && WellFormed(settlement.value))
  {
    var settlement := FirstSettlement(RunEvents(call.callee, argv), call.options,
                                      FailureMessage(call.options.message, call.callee));
    AdapterRun([Invocation(call.callee, argv)], if settlement.Some? then Settled(settlement.value) else Unsettled)
  }

  /** `callbackResultify(...args)`: the callee is called once with the single object the
      source builds, the params array spread under index keys and the two callbacks. */
  function CallbackResultify(args: seq<Value>): (run: AdapterRun)
    ensures run.outcome.Rejected? <==> ParseCallback(args).Invalid?
    ensures run.outcome.Rejected? ==>
      run.calls == [] && run.outcome.error == TypeErrorValue(ParseCallback(args).message)
    ensures !run.outcome.Deferred?
    ensures run.outcome.Settled? ==> WellFormed(run.outcome.result)
    ensures ParseCallback(args).Valid? ==>
      var call := ParseCallback(args).value;
      var argv := [Obj(Inject(call.params, call.options.resolve, call.options.reject))];
      var settlement := FirstSettlement(RunEvents(call.callee, argv), call.options,
                                        FailureMessage(call.options.message, call.callee));
      && run.calls == [Invocation(call.callee, argv)]
      && |run.calls[0].argv| == 1
      && (settlement.None? ==> run.outcome == Unsettled)
      && (settlement.Some? ==> run.outcome == Settled(settlement.value))
  {
    var parsed := ParseCallback(args);
    if parsed.Invalid? then AdapterRun([], Rejected(TypeErrorValue(parsed.message)))
    else
      var call := parsed.value;
      CallbackRun(call, [Obj(Inject(call.params, call.options.resolve, call.options.reject))])
  }

  /** `callbackResultify` as evidently intended: the callee receives `CalleeArgs`, the first
      param's fields with the two callbacks added, then the remaining params. */
  function CallbackResultifyIntended(args: seq<Value>): (run: AdapterRun)
    ensures run.outcome.Rejected? <==> ParseCallback(args).Invalid?
    ensures run.outcome.Rejected? ==>
      run.calls == [] && run.outcome.error == TypeErrorValue(ParseCallback(args).message)
    ensures !run.outcome.Deferred?
    ensures ParseCallback(args).Valid? ==>
      var call := ParseCallback(args).value;
      var argv := CalleeArgs(call.params, call.options.resolve, call.options.reject);
      var settlement := FirstSettlement(RunEvents(call.callee, argv), call.options,
                                        FailureMessage(call.options.message, call.callee));
      && run.calls == [Invocation(call.callee, argv)]
      && (settlement.None? ==> run.outcome == Unsettled)
      && (settlement.Some? ==> run.outcome == Settled(settlement.value))
  {
    var parsed := ParseCallback(args);
    if parsed.Invalid? then AdapterRun([], Rejected(TypeErrorValue(parsed.message)))
    else
      var call := parsed.value;
      CallbackRun(call, CalleeArgs(call.params, call.options.resolve, call.options.reject))
  }

  /** The two differ only in what the callee receives. A callee given as a trace fixed in
      advance (`Emit`) cannot read its argument, so for such a callee both settle alike;
      this says nothing about a callee that reads its argument, which can settle
      differently (`Scenarios.CallbackPlusReadsArgument`). Rejections agree, and without
      params the two are the same run. */
  lemma CallbackResultifyIntendedAgrees(args: seq<Value>)
    ensures ParseCallback(args).Valid? && ParseCallback(args).value.callee.behaviour.Emit? ==>
      CallbackResultifyIntended(args).outcome == CallbackResultify(args).outcome
    ensures ParseCallback(args).Valid? && ParseCallback(args).value.params == [] ==>
      CallbackResultifyIntended(args) == CallbackResultify(args)
    ensures ParseCallback(args).Invalid? ==> CallbackResultifyIntended(args) == CallbackResultify(args)
  {
    if ParseCallback(args).Valid? {
      var call := ParseCallback(args).value;
      CalleeArgsWithoutParams(call.options.resolve, call.options.reject);
    }
  }


  /** What the callback callee receives, as the declared parameter types and the test
      evidently intend: the first param's own fields with the two callbacks added, then
      the remaining params as further arguments. An object's or an array's own fields are
      spread; any other first param contributes none. */
  function CalleeArgs(params: seq<Value>, resolve: string, reject: string): (argv: seq<Value>)
    ensures |params| > 0 ==> |argv| == |params| && argv[1..] == params[1..]
    ensures |params| == 0 ==> |argv| == 1
    ensures argv[0].Obj? && reject in argv[0].fields && argv[0].fields[reject] == RejecterFn(reject)
    ensures resolve != reject ==> resolve in argv[0].fields && argv[0].fields[resolve] == ResolverFn(resolve)
    ensures |params| > 0 && params[0].Obj? ==>
      forall k :: k in params[0].fields && k != resolve && k != reject ==>
        k in argv[0].fields && argv[0].fields[k] == params[0].fields[k]
  {
    var own: map<string, Value> :=
      if |params| == 0 then map[]
      else if params[0].Obj? then params[0].fields
      else if params[0].Arr? then Spread(params[0].items)
      else map[];
    var first := Obj(own[resolve := ResolverFn(resolve)][reject := RejecterFn(reject)]);
    if |params| == 0 then [first] else [first] + params[1..]
  }

  /** The object the callback test passes as the callee's single param. */
  const SumParam: Value := Obj(map["a" := Num(1), "b" := Num(1)])

  /** As written, the params array itself is spread: the test's `{a: 1, b: 1}` reaches the
      callee under the key `'0'`, and the callee finds no `a`; the intended argument has
      `a`. */
  lemma SpreadParamsCounterexample()
    ensures "a" !in Inject([SumParam], "success", "fail")
    ensures Inject([SumParam], "success", "fail")["0"] == SumParam
    ensures CalleeArgs([SumParam], "success", "fail")[0].fields["a"] == Num(1)
  {
    SpreadOne(SumParam);
    assert Inject([SumParam], "success", "fail") ==
      map["0" := SumParam, "success" := ResolverFn("success"), "fail" := RejecterFn("fail")];
    assert "a" in SumParam.fields && "a" != "success" && "a" != "fail";
  }

  /** Without params the object as written and the intended argument coincide. */
  lemma CalleeArgsWithoutParams(resolve: string, reject: string)
    ensures CalleeArgs([], resolve, reject) == [Obj(Inject([], resolve, reject))]
  {
  }

  lemma SpreadOne(p: Value)
    ensures Spread([p]) == map["0" := p]
  {
    assert Text.NatText(0) == "0";
    assert [p][..0] == [];
  }
}

=== FILE: scenarios.dfy ===
/** The scenarios of the repository's test files, stated against the model. Where a
    test expects something the code does not do, the lemma states what the code does. */
module Scenarios {
  import Text
  import opened Values
  import Results
  import Resultify

  /** The test's `plus`: adds two numbers, and throws `TypeError('invalid arguments')`
      for anything else. Only the argument lists the tests use are tabulated. */
  const Plus: Callable := Callable(
    "plus",
    "function plus(a, b) { ... }",
    Reply([Response([Num(1), Num(2)], Returned(Num(3)))], Threw(TypeErrorValue("invalid arguments"))))

  /** `resultify(plus, 1, 2).unwrap()` is 3. */
  lemma ResultifyPlusReturns()
    ensures Results.Unwrap(Resultify.Resultify([Fn(Plus), Num(1), Num(2)]).outcome.result, []) == Returned(Num(3))
  {
    assert Invoke(Plus, [Num(1), Num(2)]) == Returned(Num(3));
    assert [Fn(Plus), Num(1), Num(2)] == [Fn(Plus)] + [Num(1), Num(2)];
    Resultify.ResultifyUnwrap(Plus, NullCode, [Num(1), Num(2)]);
  }

  /** `plus(1, '2')` throws the `TypeError`. */
  lemma PlusRejectsText()
    ensures Invoke(Plus, [Num(1), Str("2")]) == Threw(TypeErrorValue("invalid arguments"))
  {
    assert [Num(1), Str("2")] != [Num(1), Num(2)] by {
      assert [Num(1), Str("2")][1] != [Num(1), Num(2)][1];
    }
  }

  /** `resultify(plus, 1, '2').unwrap()` throws a failure whose message names `plus` and
      whose cause is the callee's `TypeError`. */
  lemma ResultifyPlusThrows()
    ensures Results.Unwrap(Resultify.Resultify([Fn(Plus), Num(1), Str("2")]).outcome.result, []) ==
      Threw(Thrown(ResultError(NullCode, "error occurred while calling 'plus' function",
                               Some(TypeErrorValue("invalid arguments")))))
  {
    PlusRejectsText();
    var call := Resultify.Plain(Plus, [Num(1), Str("2")]);
    Resultify.ParseSpelledCall(call);
    var msg := "error occurred while calling 'plus' function";
    assert Resultify.FailureMessage(Null, Plus) == msg;
    assert Resultify.Resultify(call.Spell()).outcome ==
      Resultify.Settled(Resultify.Failure(NullCode, msg, TypeErrorValue("invalid arguments")));
    assert [Fn(Plus), Num(1), Str("2")] == call.Spell();
  }

  /** With a leading code the message still names `plus`, and the failure carries the code. */
  lemma ResultifyPlusThrowsWithCode()
    ensures Results.Unwrap(Resultify.Resultify([Str("code"), Fn(Plus), Num(1), Str("2")]).outcome.result, []) ==
      Threw(Thrown(ResultError(StrCode("code"), "error occurred while calling 'plus' function",
                               Some(TypeErrorValue("invalid arguments")))))
  {
    PlusRejectsText();
    var call := Resultify.WithCode(StrCode("code"), Plus, [Num(1), Str("2")]);
    Resultify.ParseSpelledCall(call);
    var msg := "error occurred while calling 'plus' function";
    assert Resultify.FailureMessage(Null, Plus) == msg;
    assert Resultify.Resultify(call.Spell()).outcome ==
      Resultify.Settled(Resultify.Failure(StrCode("code"), msg, TypeErrorValue("invalid arguments")));
    assert [Str("code"), Fn(Plus), Num(1), Str("2")] == call.Spell();
  }

  /** `Err().expect()` throws `error occurred with code 'null'` — lower case and without a
      full stop, unlike the text the tests expect; `Err().expect('message')` throws
      `message`. */
  lemma ExpectMessages()
    ensures Results.Expect(Results.Err(Results.NoArgs), []).outcome ==
      Threw(Thrown(ResultError(NullCode, "error occurred with code 'null'", None)))
    ensures Results.Expect(Results.Err(Results.NoArgs), [Str("message")]).outcome ==
      Threw(Thrown(ResultError(NullCode, "message", None)))
  {
    var r := Results.Err(Results.NoArgs);
    assert Results.DefaultMessage(NullCode) == "error occurred with code 'null'";
    forall i | 0 <= i <= |"message"|
      ensures !Text.OccursAt("message", "{code}", i)
    {
      if i + 6 <= 7 {
        assert "message"[i..i + 6][0] == "message"[i] != '{';
      }
    }
    Results.ExpectWithoutPlaceholder(r, "message");
  }

  /** A thunk answering `Ok(v)`. */
  function OkThunk(v: Value): Callable {
    Callable("", "() => Ok(v)", Reply([], Returned(ResultInstance(OkResult(v)))))
  }

  /** A thunk answering `Err()`. */
  function ErrThunk(): Callable {
    Callable("", "() => Err()", Reply([], Returned(ResultInstance(Results.Err(Results.NoArgs)))))
  }

  /** The `fix` tests: a success ignores the handler; a failure takes a literal or a
      thunk's answer, which may itself be a failure that `unwrap` then throws; a
      code-matched handler repairs `Err('code')`, and a mismatched code leaves it. */
  lemma FixScenarios()
    ensures Results.Fix(Results.Ok([Num(1)]), [Fn(OkThunk(Bool(true)))]) == Returned(ResultInstance(OkResult(Num(1))))
    ensures Results.Fix(Results.Ok([]), [Str("code"), Fn(OkThunk(Bool(true)))]) == Returned(ResultInstance(OkResult(Null)))
    ensures Results.Fix(Results.Err(Results.CodeOnly(StrCode("code"))), [ResultInstance(OkResult(Bool(true)))]) ==
      Returned(ResultInstance(OkResult(Bool(true))))
    ensures Results.Fix(Results.Err(Results.CodeOnly(StrCode("code"))), [Fn(OkThunk(Bool(true)))]) ==
      Returned(ResultInstance(OkResult(Bool(true))))
    ensures Results.Fix(Results.Err(Results.CodeOnly(StrCode("code"))), [ResultInstance(Results.Err(Results.NoArgs))]) ==
      Returned(ResultInstance(Results.Err(Results.NoArgs)))
    ensures Results.Fix(Results.Err(Results.CodeOnly(StrCode("code"))), [Fn(ErrThunk())]) ==
      Returned(ResultInstance(Results.Err(Results.NoArgs)))
    ensures Results.Unwrap(Results.Err(Results.NoArgs), []).Threw?
    ensures Results.Fix(Results.Err(Results.CodeOnly(StrCode("code"))), [Str("code"), ResultInstance(Results.Ok([]))]) ==
      Returned(ResultInstance(OkResult(Null)))
    ensures Results.Unwrap(Results.Ok([]), []) == Returned(Null)
    ensures Results.Fix(Results.Err(Results.CodeOnly(StrCode("code"))), [Str("code"), Fn(OkThunk(Null))]) ==
      Returned(ResultInstance(OkResult(Null)))
    ensures Results.Fix(Results.Err(Results.CodeOnly(StrCode("code"))), [Str("other"), Fn(OkThunk(Null))]) ==
      Returned(ResultInstance(Results.Err(Results.CodeOnly(StrCode("code")))))
  {
  }

  /** A callee that calls its `success` member with `x`, as the test's `callbackPlus`
      does with the sum it computes. */
  function SuccessWith(x: Value): Callable {
    Callable("callbackPlus", "function callbackPlus(options) { ... }", Emit([Call("success", [x])]))
  }

  /** `callbackResultify(callbackPlus, {a: 1, b: 1})` calls the callee once with a single
      object holding the test's object under `'0'` and no `a`, so the sum the test expects
      (`[2]`) is not what the callee can compute; the outcome is `Ok([x])` for whatever
      value `x` the callee passes to `success`. */
  lemma CallbackPlus(x: Value)
    ensures var run := Resultify.CallbackResultify([Fn(SuccessWith(x)), Resultify.SumParam]);
      && run.outcome == Resultify.Settled(OkResult(Arr([x])))
      && |run.calls| == 1
      && run.calls[0].callee == SuccessWith(x)
      && |run.calls[0].argv| == 1
      && run.calls[0].argv[0].Obj?
      && "0" in run.calls[0].argv[0].fields && run.calls[0].argv[0].fields["0"] == Resultify.SumParam
      && "a" !in run.calls[0].argv[0].fields
      && "b" !in run.calls[0].argv[0].fields
  {
    var args := [Fn(SuccessWith(x)), Resultify.SumParam];
    assert args[1..] == [Resultify.SumParam];
    Resultify.SpreadParamsCounterexample();
  }

  /** A callee that throws the sum `a + b` only when its argument is the intended object
      holding the test's `a` and `b`, and returns quietly for any other argument. It is
      not `callbackPlus` read literally, which would throw `NaN` on the object as written. */
  const ThrowSum: Callable :=
    Callable("throwSum", "function throwSum(options) { ... }",
             Reply([Response(Resultify.CalleeArgs([Resultify.SumParam], "success", "fail"), Threw(Num(2)))],
                   Returned(Undefined)))

  /** `ThrowSum` tells the written and the intended adapter apart: as written its argument
      is not the intended object, so it returns quietly and the adapter never settles; as
      intended it throws the sum and the adapter settles with a failure whose cause is the
      sum. */
  lemma CallbackPlusReadsArgument()
    ensures Resultify.CallbackResultify([Fn(ThrowSum), Resultify.SumParam]).outcome == Resultify.Unsettled
    ensures var run := Resultify.CallbackResultifyIntended([Fn(ThrowSum), Resultify.SumParam]);
      run.outcome.Settled? && run.outcome.result.ErrResult? && run.outcome.result.error.cause == Some(Num(2))
  {
    var args := [Fn(ThrowSum), Resultify.SumParam];
    assert args[1..] == [Resultify.SumParam];
    Resultify.SpreadParamsCounterexample();
    var written := [Obj(Resultify.Inject([Resultify.SumParam], "success", "fail"))];
    var intended := Resultify.CalleeArgs([Resultify.SumParam], "success", "fail");
    assert written != intended by {
      assert "a" in intended[0].fields && "a" !in written[0].fields;
    }
    assert RunEvents(ThrowSum, written) == [];
    assert RunEvents(ThrowSum, intended) == [Throw(Num(2))];
  }
}

=== FILE: text.dfy ===
/** Text helpers the outcome type relies on: the decimal rendering of integers that
    JavaScript's `String(n)` produces, and `String.prototype.replace` called with a
    string pattern, including the `$`-patterns its replacement text expands. */
module Text {

  predicate IsDigit(c: char) {
    '0' <= c <= '9'
  }

  predicate AllDigits(s: string) {
    forall i :: 0 <= i < |s| ==> IsDigit(s[i])
  }

  function DigitChar(d: nat): (c: char)
    requires d < 10
    ensures IsDigit(c)
    ensures DigitValue(c) == d
  {
    "0123456789"[d]
  }

  function DigitValue(c: char): nat
    requires IsDigit(c)
  {
    (c as int - '0' as int) as nat
  }

  /** The decimal digits of `n`, most significant first, without leading zeros. */
  function NatText(n: nat): (s: string)
    ensures |s| > 0
    ensures AllDigits(s)
    decreases n
  {
    if n < 10 then [DigitChar(n)] else NatText(n / 10) + [DigitChar(n % 10)]
  }

  /** Reads a string of decimal digits back as a number. */
  function ParseNat(s: string): nat
    requires AllDigits(s)
    decreases |s|
  {
    if |s| == 0 then 0 else ParseNat(s[..|s| - 1]) * 10 + DigitValue(s[|s| - 1])
  }

  /** Reading the decimal text of `n` gives `n` back. */
  lemma {:induction false} ParseNatText(n: nat)
    ensures ParseNat(NatText(n)) == n
    decreases n
  {
    if n >= 10 {
      var s := NatText(n);
      assert s[..|s| - 1] == NatText(n / 10);
      ParseNatText(n / 10);
    }
  }

  /** The decimal text of a positive number does not start with a zero. */
  lemma {:induction false} NatTextLead(n: nat)
    ensures n >= 1 ==> NatText(n)[0] != '0'
    decreases n
  {
    if n >= 10 {
      NatTextLead(n / 10);
      assert NatText(n)[0] == NatText(n / 10)[0];
    }
  }

  /** Distinct numbers have distinct decimal texts. */
  lemma NatTextsDiffer(a: nat, b: nat)
    requires a != b
    ensures NatText(a) != NatText(b)
  {
    ParseNatText(a);
    ParseNatText(b);
  }

  /** `String(n)` for an integer `n` (below the magnitude where JavaScript switches to
      exponent notation). */
  function IntText(n: int): (s: string)
    ensures |s| > 0
    ensures n >= 0 ==> AllDigits(s)
    ensures n < 0 ==> |s| > 1 && s[0] == '-' && AllDigits(s[1..])
    ensures n >= 0 ==> ParseNat(s) == n
    ensures n < 0 ==> ParseNat(s[1..]) == -n
    ensures n >= 0 && |s| > 1 ==> s[0] != '0'
    ensures n < 0 ==> s[1] != '0'
    ensures '$' !in s
  {
    if n < 0 then
      var t := NatText(-n);
      ParseNatText(-n);
      NatTextLead(-n);
      assert ("-" + t)[1..] == t;
      "-" + t
    else
      ParseNatText(n);
      NatTextLead(n);
      NatText(n)
  }

  /** Whether `pat` occurs in `s` at position `i`. */
  predicate OccursAt(s: string, pat: string, i: int) {
    0 <= i && i + |pat| <= |s| && s[i..i + |pat|] == pat
  }

  /** `s.indexOf(pat, from)`: the least position at or after `from` where `pat` occurs,
      or -1 when there is none. */
  function IndexOf(s: string, pat: string, from: nat): (r: int)
    ensures r == -1 <==> forall i :: from <= i <= |s| ==> !OccursAt(s, pat, i)
    ensures r != -1 ==> from <= r && OccursAt(s, pat, r)
    ensures r != -1 ==> forall i :: from <= i < r ==> !OccursAt(s, pat, i)
    decreases |s| + 1 - from
  {
    if from + |pat| > |s| then -1
    else if s[from..from + |pat|] == pat then assert OccursAt(s, pat, from); from
    else IndexOf(s, pat, from + 1)
  }

  /** The replacement text a string-pattern `replace` inserts for `template`, as the
      GetSubstitution operation of ECMA-262, the ECMAScript language specification,
      computes it when there are no capture groups:
      `$$` becomes `$`, `$&` the matched text, `` $` `` the text before the match and
      `$'` the text after it; every other character, `$` included, is copied. */
  function Substitute(matched: string, str: string, position: nat, template: string): (r: string)
    requires position + |matched| <= |str|
    decreases |template|
  {
    if |template| == 0 then ""
    else if template[0] == '$' && |template| >= 2 && template[1] == '$' then
      "$" + Substitute(matched, str, position, template[2..])
    else if template[0] == '$' && |template| >= 2 && template[1] == '&' then
      matched + Substitute(matched, str, position, template[2..])
    else if template[0] == '$' && |template| >= 2 && template[1] == '`' then
      str[..position] + Substitute(matched, str, position, template[2..])
    else if template[0] == '$' && |template| >= 2 && template[1] == '\'' then
      str[position + |matched|..] + Substitute(matched, str, position, template[2..])
    else
      [template[0]] + Substitute(matched, str, position, template[1..])
  }

  /** A replacement text without `$` is inserted verbatim. */
  lemma {:induction false} SubstituteWithoutDollar(matched: string, str: string, position: nat, template: string)
    requires position + |matched| <= |str|
    requires '$' !in template
    ensures Substitute(matched, str, position, template) == template
    decreases |template|
  {
    if |template| > 0 {
      assert template[0] != '$';
      assert '$' !in template[1..] by {
        forall i | 0 <= i < |template[1..]|
          ensures template[1..][i] != '$'
        {
          assert template[1..][i] == template[i + 1];
        }
      }
      SubstituteWithoutDollar(matched, str, position, template[1..]);
    }
  }

  /** `s.replace(pat, replacement)` with a string pattern: only the first occurrence of
      `pat` is replaced, by the expansion of `replacement`. */
  function ReplaceFirst(s: string, pat: string, replacement: string): string
  {
    var i := IndexOf(s, pat, 0);
    if i == -1 then s
    else s[..i] + Substitute(pat, s, i, replacement) + s[i + |pat|..]
  }

  /** What the first-occurrence replacement evidently means to do: put `replacement`
      in place of the first occurrence of `pat`, character for character. */
  function ReplaceFirstVerbatim(s: string, pat: string, replacement: string): (r: string)
    ensures IndexOf(s, pat, 0) == -1 ==> r == s
    ensures IndexOf(s, pat, 0) != -1 ==>
      var i := IndexOf(s, pat, 0);
      && |r| == |s| - |pat| + |replacement|
      && r[..i] == s[..i]
      && r[i..i + |replacement|] == replacement
      && r[i + |replacement|..] == s[i + |pat|..]
  {
    var i := IndexOf(s, pat, 0);
    if i == -1 then s
    else s[..i] + replacement + s[i + |pat|..]
  }

  /** The two replacements agree whenever the replacement text holds no `$`. */
  lemma ReplaceFirstAgreesWithoutDollar(s: string, pat: string, replacement: string)
    requires '$' !in replacement
    ensures ReplaceFirst(s, pat, replacement) == ReplaceFirstVerbatim(s, pat, replacement)
  {
    var i := IndexOf(s, pat, 0);
    if i != -1 {
      SubstituteWithoutDollar(pat, s, i, replacement);
    }
  }
}

=== FILE: values.dfy ===
/** The JavaScript values the outcome type and its adapters handle, with the outcome
    type's own records among them: a Result instance can be a payload, a fallback or a
    handler's answer, so it is one kind of value.  Callables are data: a name, the
    source text `toString` shows, and a description of what they do when called. */
module Values {
  import Text

  datatype Option<+T> = None | Some(value: T)

  /** A failure code: a string, an integer, or one of the two "no code" values. */
  datatype Code = NullCode | UndefinedCode | StrCode(s: string) | NumCode(n: int)

  datatype Value =
    | Undefined
    | Null
    | Bool(b: bool)
    | Num(n: int)
    | Str(s: string)
    | Arr(items: seq<Value>)
    /** A plain object with its own enumerable properties. */
    | Obj(fields: map<string, Value>)
    | Fn(callable: Callable)
    | Error(error: ErrorObject)
    | ResultInstance(result: Result)
    /** A promise; the model never looks inside it. */
    | Promise(id: nat)

  datatype Callable = Callable(name: string, source: string, behaviour: Behaviour)

  /** What a callable does when it is called. */
  datatype Behaviour =
    /** Completes with the first response whose argument list matches, else `otherwise`. */
    | Reply(responses: seq<Response>, otherwise: Completion)
    /** A callback-style function: it calls members of its first argument, and may throw. */
    | Emit(events: seq<Event>)
    /** The two callbacks the callback adapter injects into its callee's argument. */
    | Resolver
    | Rejecter

  datatype Response = Response(argv: seq<Value>, completion: Completion)

  /** One observable step of a callback-style callee: calling the member `member` of its
      argument, or the synchronous call ending by throwing `error`. */
  datatype Event = Call(member: string, argv: seq<Value>) | Throw(error: Value)

  datatype Completion = Returned(value: Value) | Threw(error: Value)

  /** An instance of `Error`: a built-in one (`Error`, `TypeError`, ...) or a `ResultError`. */
  datatype ErrorObject =
    | BuiltinError(name: string, message: string, cause: Option<Value>)
    | ResultErrorObject(record: ResultError)
  {
    function Name(): string {
      match this
      case BuiltinError(name, _, _) => name
      case ResultErrorObject(_) => ResultErrorName
    }

    function Message(): string {
      match this
      case BuiltinError(_, message, _) => message
      case ResultErrorObject(record) => record.message
    }

    function Cause(): Option<Value> {
      match this
      case BuiltinError(_, _, cause) => cause
      case ResultErrorObject(record) => record.cause
    }
  }

  /** The `name` every `ResultError` carries. */
  const ResultErrorName: string := "ResultError"

  /** The failure record: a code fixed at construction, a message, and a cause that is
      present only when the constructor was given one (possibly `undefined`). */
  datatype ResultError = ResultError(code: Code, message: string, cause: Option<Value>)

  /** The outcome: `OkResult` holds a payload, `ErrResult` a code and its failure record. */
  datatype Result = OkResult(value: Value) | ErrResult(code: Code, error: ResultError)

  /** The invariant every constructed outcome keeps: a failure record carries the same
      code as the outcome that owns it. */
  predicate WellFormed(r: Result) {
    r.ErrResult? ==> r.error.code == r.code
  }

  /** The value a ResultError is when it is thrown. */
  function Thrown(e: ResultError): Value {
    Error(ResultErrorObject(e))
  }

  /** The `TypeError` the adapters throw for a misuse. */
  function TypeErrorValue(message: string): Value {
    Error(BuiltinError("TypeError", message, None))
  }

  /** JavaScript's `typeof`. */
  function TypeOf(v: Value): string {
    match v
    case Undefined => "undefined"
    case Bool(_) => "boolean"
    case Num(_) => "number"
    case Str(_) => "string"
    case Fn(_) => "function"
    case _ => "object"
  }

  predicate IsNullish(v: Value) {
    v.Null? || v.Undefined?
  }

  /** `a ?? b`. */
  function Coalesce(a: Value, b: Value): (r: Value)
    ensures !IsNullish(a) ==> r == a
    ensures IsNullish(a) ==> r == b
  {
    if IsNullish(a) then b else a
  }

  /** The value a code is. */
  function CodeValue(c: Code): Value {
    match c
    case NullCode => Null
    case UndefinedCode => Undefined
    case StrCode(s) => Str(s)
    case NumCode(n) => Num(n)
  }

  /** The adapters' code check: a value passes when it is `null`, `undefined`, a string or
      a number, and then it is the code it reads as. */
  function AsCode(v: Value): (r: Option<Code>)
    ensures r.Some? <==> (IsNullish(v) || TypeOf(v) == "string" || TypeOf(v) == "number")
    ensures r.Some? ==> CodeValue(r.value) == v
  {
    match v
    case Null => Some(NullCode)
    case Undefined => Some(UndefinedCode)
    case Str(s) => Some(StrCode(s))
    case Num(n) => Some(NumCode(n))
    case _ => None
  }

  /** Every code passes the check and reads back as itself. */
  lemma AsCodeValue(c: Code)
    ensures AsCode(CodeValue(c)) == Some(c)
  {
  }

  /** The text a code shows in a template literal and in `expect`'s rewrite: `null`,
      `undefined`, the string itself, or the decimal number. */
  function CodeText(c: Code): (s: string)
    ensures !c.StrCode? ==> '$' !in s
  {
    match c
    case NullCode => "null"
    case UndefinedCode => "undefined"
    case StrCode(s) => s
    case NumCode(n) => Text.IntText(n)
  }

  /** Whether `key` is the canonical index key of a position below `n`. */
  predicate IsIndexKey(key: string, n: nat) {
    Text.AllDigits(key) && key == Text.NatText(Text.ParseNat(key)) && Text.ParseNat(key) < n
  }

  /** Reading the property `key` of an object: own data properties only (inherited
      methods are not modelled). */
  function Get(v: Value, key: string): Value
    requires TypeOf(v) == "object" && !v.Null?
  {
    match v
    case Obj(fields) => if key in fields then fields[key] else Undefined
    case Arr(items) =>
      if key == "length" then Num(|items|)
      else if IsIndexKey(key, |items|) then items[Text.ParseNat(key)]
      else Undefined
    case Error(e) =>
      if key == "name" then Str(e.Name())
      else if key == "message" then Str(e.Message())
      else if key == "cause" && e.Cause().Some? then e.Cause().value
      else if key == "code" && e.ResultErrorObject? then CodeValue(e.record.code)
      else Undefined
    case ResultInstance(r) =>
      if key == "value" && r.OkResult? then r.value
      else if key == "code" && r.ErrResult? then CodeValue(r.code)
      else if key == "error" && r.ErrResult? then Thrown(r.error)
      else Undefined
    case Promise(_) => Undefined
  }

  /** The completion of the first response whose argument list is `argv`, or `otherwise`. */
  function Respond(responses: seq<Response>, argv: seq<Value>, otherwise: Completion): (c: Completion)
    ensures (forall i :: 0 <= i < |responses| ==> responses[i].argv != argv) ==> c == otherwise
    ensures forall i :: 0 <= i < |responses| && responses[i].argv == argv &&
                        (forall j :: 0 <= j < i ==> responses[j].argv != argv) ==>
                          c == responses[i].completion
    decreases |responses|
  {
    if |responses| == 0 then otherwise
    else if responses[0].argv == argv then responses[0].completion
    else
      var c := Respond(responses[1..], argv, otherwise);
      assert forall i :: 1 <= i < |responses| ==> responses[i] == responses[1..][i - 1];
      c
  }

  /** The error of the first `Throw` in a trace, if any. */
  function FirstThrow(events: seq<Event>): (r: Option<Value>)
    ensures r.None? <==> forall i :: 0 <= i < |events| ==> !events[i].Throw?
    ensures r.Some? ==> exists i :: 0 <= i < |events| && events[i] == Throw(r.value) &&
                                    (forall j :: 0 <= j < i ==> !events[j].Throw?)
    decreases |events|
  {
    if |events| == 0 then None
    else if events[0].Throw? then Some(events[0].error)
    else
      var r := FirstThrow(events[1..]);
      assert forall i :: 1 <= i < |events| ==> events[i] == events[1..][i - 1];
      if r.Some? then
        var k :| 0 <= k < |events[1..]| && events[1..][k] == Throw(r.value) &&
                 (forall j :: 0 <= j < k ==> !events[1..][j].Throw?);
        assert events[k + 1] == Throw(r.value);
        r
      else r
  }

  /** Calling `f` with the argument list `argv`. A callback-style function returns
      `undefined` unless its run throws; an injected callback returns `undefined`. */
  function Invoke(f: Callable, argv: seq<Value>): (c: Completion)
    ensures f.behaviour.Emit? ==>
      (c.Threw? <==> exists i :: 0 <= i < |f.behaviour.events| && f.behaviour.events[i].Throw?)
    ensures f.behaviour.Emit? && c.Returned? ==> c.value == Undefined
    ensures f.behaviour.Resolver? || f.behaviour.Rejecter? ==> c == Returned(Undefined)
  {
    match f.behaviour
    case Reply(responses, otherwise) => Respond(responses, argv, otherwise)
    case Emit(events) =>
      var t := FirstThrow(events);
      if t.Some? then Threw(t.value) else Returned(Undefined)
    case Resolver => Returned(Undefined)
    case Rejecter => Returned(Undefined)
  }

  /** The trace of a run of `f` on `argv`: a callback-style function's own events; any
      other callable makes no member calls, and its run ends with a `Throw` exactly when
      its completion is a throw. */
  function RunEvents(f: Callable, argv: seq<Value>): (events: seq<Event>)
    ensures f.behaviour.Emit? ==> events == f.behaviour.events
    ensures !f.behaviour.Emit? ==>
      (Invoke(f, argv).Threw? ==> events == [Throw(Invoke(f, argv).error)]) &&
      (Invoke(f, argv).Returned? ==> events == [])
  {
    match f.behaviour
    case Emit(events) => events
    case _ =>
      var c := Invoke(f, argv);
      if c.Threw? then [Throw(c.error)] else []
  }
}
